=== FILE: README.md ===
# CrptApi in Dafny

A model of `CrptApi`, a client for the document-creation endpoint of the
Russian product-marking registry. The model covers two parts:

- **The rate limiter.** A ledger (a queue of admission timestamps) allows at
  most `requestLimit` requests per window of `timeUnit.toMillis(1)`
  milliseconds. Before each
  request, `waitForRequestLimit` does three things. It cleans entries that
  are strictly before `now - window`. While the ledger is full, it sleeps
  until the oldest entry's expiry and cleans again. Finally it appends the
  current instant.
- **The request.** A document is serialised to JSON by the hand-written
  `toJsonString` methods of `Document`, `Description` and `Product`. The JSON
  is Base64-encoded and wrapped in a `DocumentRequest` JSON. That request is
  posted to `apiUrl?pg=<productGroup>`.

Modules:

| file | module | contents |
|---|---|---|
| `wrappers.dfy` | `Wrappers` | `Option` (a Java reference that may be null) and `Result` (a constructor that may throw) |
| `ledger.dfy` | `Ledger` | cleaning (`Prune`), the sleep computation (`SleepTime`) and window counting (`CountIn`, `WindowSafe`) |
| `limiter.dfy` | `Limiter` | the wait loop of `waitForRequestLimit` |
| `window.dfy` | `SlidingWindow` | sequences of acquires (`Replay`) and the sliding-window guarantee |
| `json_escape.dfy` | `JsonEscape` | `escapeJsonString` and a decoder that inverts it |
| `documents.dfy` | `Documents` | the four `toJsonString` serialisers |
| `api.dfy` | `Api` | the constructors, `buildRequestUrl`, `buildRequestBody` and `createDocument` |
| `constructed.dfy` | `Constructed` | the window guarantee for the limiter the constructor builds |

Time and the clock:

- Time is an integer count of milliseconds.
- Each `Instant.now()` is one clock reading. `waitForRequestLimit` receives
  its first reading `now` and a sequence `delays` of extra milliseconds.
- Each delay says how much later than the previous reading, plus any sleep,
  the next reading is taken.
- The loop alternates two readings. The first is the one that computes the
  sleep time. The second, after the sleep, is the one that cleans.
- The result is `Admitted` with the new ledger and the admission stamp. If
  the readings run out first, it is `Waiting`, with the ledger as cleaned so
  far. The loop in the source may not terminate, and a finite sequence of
  readings is how the model states that.

Escaping:

- The source has four identical copies of `escapeJsonString`: in
  `DocumentRequest`, `Document`, `Description` and `Product`. They are one
  function here, `JsonEscape.EscapeJsonString`.
- It is modelled as the chain of seven `String.replace` calls it is, and it
  is proved equal to escaping each character once.

Behaviours of the code that the model follows as written:

- The limiter sleeps while holding its lock, so other callers wait behind
  the sleeper rather than pruning concurrently. The model is one sequential
  caller at a time, and under that model the guarantee below is proved.
- The document JSON is not always well-formed JSON:
  - `Document` ignores its comma flag, so string fields are written back to
    back with no separator.
  - An empty or null product list is written `"products":[],`, with a
    trailing comma.
  - A product whose `uitu_code` is null but which has another field set
    ends with `,}`.

In the model's whole-millisecond clock, a sleep ends exactly at the head
entry's expiry instant, and a clean at that instant keeps the head, because
`isBefore` is strict. In the model, progress therefore needs the clock to
advance at least one millisecond beyond the computed sleep. The code's
`Instant` is finer than a millisecond and `Duration.toMillis` truncates, so
there a sleep can end just before the expiry, and any advance past it frees
the head.

## Model

| member | source | states |
|---|---|---|
| Ledger.Prune | src/main/java/com/example/crpt/CrptApi.java:98-103 | cleaning removes only a prefix of entries strictly before the threshold; what is left is a suffix of the ledger whose head, if any, is at or after the threshold |
| Ledger.PruneSortedIsRecent | src/main/java/com/example/crpt/CrptApi.java:98-103 | on a time-ordered ledger, popping from the head equals keeping exactly the entries at or after the threshold |
| Ledger.UnsortedPruneKeepsStale | src/main/java/com/example/crpt/CrptApi.java:100-102 | the head-only test relies on ordering: with an unordered ledger a stale entry behind a fresh head survives |
| Ledger.PruneTwice | src/main/java/com/example/crpt/CrptApi.java:98-103 | cleaning at an earlier reading and then at a later one is the same as cleaning once at the later one |
| Ledger.SleepTime | src/main/java/com/example/crpt/CrptApi.java:105-112 | the sleep is never negative, is zero for an empty ledger or an already expired head, and otherwise ends exactly at the head's expiry instant |
| Ledger.HeadExpiresIff | src/main/java/com/example/crpt/CrptApi.java:98-103 | a clean at reading t removes the head if and only if t is strictly after the head's stamp plus the window |
| Ledger.WakingAtExpiryKeepsHead | src/main/java/com/example/crpt/CrptApi.java:83-85 | a clean at the exact end of the computed sleep keeps the head; a clean at any later reading removes it |
| Ledger.WindowHoldsRun | src/main/java/com/example/crpt/CrptApi.java:77-96 | helper behind Ledger.SpreadOut, a counting fact about histories: if admissions i..j all fall in the window ending at admission j, that window counts at least j - i + 1 admissions |
| Ledger.SpreadOut | src/main/java/com/example/crpt/CrptApi.java:77-96 | in an ordered history that respects the limit, admission i + limit is stamped more than one window after admission i |
| Limiter.WaitLoop | src/main/java/com/example/crpt/CrptApi.java:81-92 | the loop's final clock reading is never before its first |
| Limiter.AfterSleep | src/main/java/com/example/crpt/CrptApi.java:82-85 | after one round the clock reads the later of the pre-sleep reading and the oldest entry's expiry instant, plus the delay after the sleep; with an empty ledger there is no sleep |
| Limiter.WaitLoopOutcome | src/main/java/com/example/crpt/CrptApi.java:81-92 | on admission, the ledger before the new stamp is the entering ledger minus stale entries and has fewer than requestLimit entries, and the stamp is appended last; while waiting, only stale entries were removed |
| Limiter.WaitForRequestLimit | src/main/java/com/example/crpt/CrptApi.java:77-96 | after admission the ledger holds at most requestLimit entries, ends with the admission's stamp and otherwise lost only entries that left the window |
| Limiter.RoomAdmitsAtOnce | src/main/java/com/example/crpt/CrptApi.java:79-92 | after the first clean, the caller is admitted at its next reading onto the cleaned ledger, without sleeping, if and only if the cleaned ledger holds fewer than requestLimit entries |
| Limiter.WaitKeepsOrder | src/main/java/com/example/crpt/CrptApi.java:77-96 | a time-ordered ledger with no entry after the clock stays so after waiting and appending |
| Limiter.AdvancingClockAdmits | src/main/java/com/example/crpt/CrptApi.java:81-92 | if every reading advances at least 1 ms past the previous one and its sleep, the loop admits within 2n + 1 readings for a ledger of n entries |
| Limiter.FrozenClockNeverAdmits | src/main/java/com/example/crpt/CrptApi.java:81-92 | if the clock advances by exactly the sleeps and no more, a full ledger whose head is still inside the window never admits |
| SlidingWindow.Replay | src/main/java/com/example/crpt/CrptApi.java:77-96 | a sequence of acquires keeps the window and limit and never moves the clock back |
| SlidingWindow.AdmissionKeepsWindow | src/main/java/com/example/crpt/CrptApi.java:81-92 | appending a stamp when fewer than requestLimit in-window entries remain keeps every admission's window within the limit |
| SlidingWindow.AcquireKeepsConsistent | src/main/java/com/example/crpt/CrptApi.java:77-96 | one acquire, admitted or still waiting, keeps history ordered, the ledger a stale-trimmed suffix of history, and every window within the limit |
| SlidingWindow.ReplayKeepsConsistent | src/main/java/com/example/crpt/CrptApi.java:77-96 | any sequence of acquires keeps that invariant |
| SlidingWindow.ReplayRespectsWindow | src/main/java/com/example/crpt/CrptApi.java:77-112 | from a freshly constructed limiter, every admission at t has at most requestLimit admissions stamped in [t - window, t] |
| SlidingWindow.ReplayLedgerIsRecentHistory | src/main/java/com/example/crpt/CrptApi.java:77-103 | over the same runs the history is ordered, and the ledger is the history minus a prefix of entries older than the current window, so it is a suffix of the history |
| SlidingWindow.ReplaySpreadsAdmissions | src/main/java/com/example/crpt/CrptApi.java:77-112 | the admission requestLimit places after any other comes more than one window later |
| SlidingWindow.RoomInWindowAdmitsAtOnce | src/main/java/com/example/crpt/CrptApi.java:77-96 | a caller that finds fewer than requestLimit admissions in the window ending at its clean is admitted at its next reading, without sleeping |
| JsonEscape.EscapeJsonString | src/main/java/com/example/crpt/CrptApi.java:153-164 | null escapes to the empty string; otherwise the result is every character escaped once |
| JsonEscape.ReplaceChainIsEscape | src/main/java/com/example/crpt/CrptApi.java:157-163 | the seven replace calls, backslash first, equal the per-character escape: no replacement is itself rewritten by a later call |
| JsonEscape.ReplaceStepsChainable | src/main/java/com/example/crpt/CrptApi.java:157-163 | no later call's target character occurs in an earlier call's replacement |
| JsonEscape.LookupIsEscapeChar | src/main/java/com/example/crpt/CrptApi.java:157-163 | for a single character, the first matching replace call gives its JSON escape |
| JsonEscape.EscapeLetter | src/main/java/com/example/crpt/CrptApi.java:157-163 | each escape letter decodes back to the character it stands for |
| JsonEscape.Escape | src/main/java/com/example/crpt/CrptApi.java:157-163 | escaping never shortens the text and leaves no raw backspace, form feed, newline, carriage return or tab |
| JsonEscape.EscapeUnchangedIff | src/main/java/com/example/crpt/CrptApi.java:153-164 | a string is left unchanged if and only if it contains none of the seven special characters |
| JsonEscape.ReadStringOfEscape | src/main/java/com/example/crpt/CrptApi.java:153-164 | reading the escaped text up to the closing quote gives back the original string and the rest |
| Documents.DescriptionJson | src/main/java/com/example/crpt/CrptApi.java:337-340 | a null inn is written as `""`; the object decodes back to the inn |
| Documents.AllCommaFields | src/main/java/com/example/crpt/CrptApi.java:439-444 | appendField calls that all pass true write the non-null fields joined by commas, plus one comma after the last |
| Documents.ProductJson | src/main/java/com/example/crpt/CrptApi.java:422-437 | a product is its non-null fields in declaration order joined by commas, except that a trailing comma is left before `}` when uitu_code is null and some other field is not |
| Documents.DocumentFieldsRunTogether | src/main/java/com/example/crpt/CrptApi.java:218-222 | Document.appendField ignores its flag: consecutive non-null fields are concatenated with no separator |
| Documents.ProductAppendFieldReadsBack | src/main/java/com/example/crpt/CrptApi.java:439-444 | a null field writes nothing; a non-null field writes a member that decodes back to the field's value, followed by a comma exactly when the flag is true |
| Documents.DocumentAppendFieldReadsBack | src/main/java/com/example/crpt/CrptApi.java:218-222 | a null field writes nothing; a non-null field writes a member that decodes back to the field's value with nothing after it, whatever the comma flag says |
| Documents.DocumentNullFieldSkipped | src/main/java/com/example/crpt/CrptApi.java:218-222 | removing a null field from a document's field list leaves the written text unchanged |
| Documents.ProductNullFieldSkipped | src/main/java/com/example/crpt/CrptApi.java:439-444 | removing a null field from a product's field list leaves the written text unchanged |
| Documents.ProductJsons | src/main/java/com/example/crpt/CrptApi.java:202-208 | one text per product, in array order, each that product's own JSON |
| Documents.ProductItemsIsJoin | src/main/java/com/example/crpt/CrptApi.java:202-208 | the products loop writes the product objects joined by commas |
| Documents.DocumentJson | src/main/java/com/example/crpt/CrptApi.java:183-216 | the text is enclosed in braces |
| Documents.DocumentJsonLayout | src/main/java/com/example/crpt/CrptApi.java:183-216 | the layout is `description` (`null` or the nested object) and a comma, then the head fields unseparated, then the products as `[]` plus a comma when null or empty and otherwise the comma-joined products in brackets, then reg_date and reg_number unseparated |
| Documents.DocumentRequestJson | src/main/java/com/example/crpt/CrptApi.java:143-151 | the request decodes back to its four values in key order, with null read as `""` |
| Api.WindowMillis | src/main/java/com/example/crpt/CrptApi.java:99 | the window is one unit truncated to whole milliseconds, which is zero exactly for nanoseconds and microseconds |
| Api.New | src/main/java/com/example/crpt/CrptApi.java:32-45 | construction fails, with "Request limit must be positive", if and only if the limit is not positive; otherwise the ledger is empty and the URL and group are as given |
| Api.NewWithGroup | src/main/java/com/example/crpt/CrptApi.java:28-30 | the three-argument constructor uses the production document-creation URL |
| Api.NewDefault | src/main/java/com/example/crpt/CrptApi.java:24-26 | the two-argument constructor also uses the group "clothes" |
| Constructed.NewLimiterRespectsWindow | src/main/java/com/example/crpt/CrptApi.java:32-45 | a limiter built by the constructor starts empty with window `toMillis(1)`, so over any sequence of acquires every admission has at most requestLimit admissions in its window |
| Api.SplitLast | src/main/java/com/example/crpt/CrptApi.java:114-116 | helper behind Api.BuildRequestUrl, a decoder for its output: splitting at the last occurrence of a character gives text before and after it with none of that character after |
| Api.SplitFirst | src/main/java/com/example/crpt/CrptApi.java:114-116 | helper behind Api.BuildRequestUrl, a decoder for its output: splitting at the first occurrence of a character gives text before and after it with none of that character before |
| Api.BuildRequestUrl | src/main/java/com/example/crpt/CrptApi.java:114-116 | for an API URL without '?' (the production URL has none), any group's URL splits at its first '?' into the API URL and `pg=<group>`; for a group without '?', it splits so at its last '?'; null parts are written "null" |
| Api.BuildRequestBody | src/main/java/com/example/crpt/CrptApi.java:118-124 | the body decodes to the encoded document JSON, format MANUAL, the signature and the document type (each empty when null) |
| Api.CreateDocument | src/main/java/com/example/crpt/CrptApi.java:50-56 | a request is built only after admission, to the group's URL with an LP_INTRODUCE_GOODS body; the admission stamp is the newest ledger entry and the ledger stays within the limit; configuration is unchanged |
| Api.CreateDocumentInDefaultGroup | src/main/java/com/example/crpt/CrptApi.java:47-49 | without a group the constructor's default group is used |
| Api.DefaultRequestUrl | src/main/java/com/example/crpt/CrptApi.java:24-30 | the two-argument constructor sends to the production URL with `pg=clothes` |

## Left out

- Sending the request is not modelled, and neither is what follows it. That
  covers the HTTP client and its 30-second connect timeout, the `Content-Type`
  and `Authorization` headers, `getAuthToken`, response-status logging and
  the `IOException` wrapping. `createDocument` ends with the URL and body it
  would send.
- The lock and concurrency are not modelled. Callers are modelled one after
  another, which is what holding the lock across the whole wait gives.
- Thread interruption is not modelled. An interrupted sleep throws
  `RuntimeException`.
- The `Instant` precision below one millisecond and the truncation in
  `Duration.toMillis` are not modelled, because the clock is in whole
  milliseconds.
- Base64 encoding and `getBytes` are taken as a function parameter `encode`,
  since they are library code.
- A null `Document` or a null element of the products array makes the
  source throw `NullPointerException`. These are not modelled, so documents
  and products are plain values. A null `documentType` is escaped to an
  empty string, as the model's optional `documentType` shows.
- A null `timeUnit` is not modelled. The constructor accepts it, and the
  first `createDocument` then throws `NullPointerException` in
  `cleanOldRequests` before the ledger changes. The time unit is a plain
  value here.
- The clock is assumed never to go back: gaps between calls and delays
  between readings are natural numbers. `Instant.now()` is a wall clock that
  can be set back, and the proved window guarantee depends on this
  assumption.
- Getters, setters and the no-argument constructors of the nested classes
  are not modelled. The model builds values directly.
- Limiter.WaitForRequestLimit: a source loop that never ends is modelled as
  running out of the given clock readings, which yields `Waiting`.
- Api.BuildRequestUrl: when both the API URL and the group contain '?', the
  contract does not say how the URL splits, because neither the first nor
  the last '?' then separates the parts. The URL is still the API URL,
  `?pg=` and the group, as the code concatenates them.
- Strings are sequences of Unicode characters, while Java strings are
  UTF-16 code units and may hold a lone surrogate, which the model cannot
  represent. The escaping touches only ASCII characters, so the output for
  every representable string is the same.
- Documents.DocumentJson: its own contract only says the text is braced; the
  full layout is stated by Documents.DocumentJsonLayout.

=== FILE: api.dfy ===
/**
  The CrptApi object: construction, the request URL and body, and
  createDocument as "wait for the rate limiter, then build the request".
  Sending the request, the bearer token and logging are not modelled; the
  outcome carries the URL and body that would be sent.
 */
module Api {
  import opened Wrappers
  import opened Limiter
  import opened Documents

  /** java.util.concurrent.TimeUnit. */
  datatype TimeUnit = Nanoseconds | Microseconds | Milliseconds | Seconds | Minutes | Hours | Days

  /** The length of one unit in nanoseconds. */
  function Nanos(unit: TimeUnit): nat {
    match unit
    case Nanoseconds => 1
    case Microseconds => 1_000
    case Milliseconds => 1_000_000
    case Seconds => 1_000_000_000
    case Minutes => 60_000_000_000
    case Hours => 3_600_000_000_000
    case Days => 86_400_000_000_000
  }

  /**
    timeUnit.toMillis(1), the limiter's window: one unit in whole
    milliseconds, so zero for the units shorter than a millisecond.
   */
  function WindowMillis(unit: TimeUnit): (ms: nat)
    ensures ms == Nanos(unit) / 1_000_000
    ensures ms == 0 <==> unit == Nanoseconds || unit == Microseconds
  {
    match unit
    case Nanoseconds => 0
    case Microseconds => 0
    case Milliseconds => 1
    case Seconds => 1_000
    case Minutes => 60_000
    case Hours => 3_600_000
    case Days => 86_400_000
  }

  const DefaultApiUrl: string := "https://ismp.crpt.ru/api/v3/lk/documents/create"
  const DefaultProductGroup: string := "clothes"
  const LimitNotPositive: string := "Request limit must be positive"
  const ManualFormat: string := "MANUAL"
  const IntroduceGoods: string := "LP_INTRODUCE_GOODS"

  /** The fields of a CrptApi that the model keeps; apiUrl and the group may be null. */
  datatype CrptApi = CrptApi(
    timeUnit: TimeUnit,
    limiter: Limiter,
    apiUrl: Option<string>,
    defaultProductGroup: Option<string>)

  /** The four-argument constructor: a non-positive limit is refused, otherwise the ledger starts empty. */
  function New(unit: TimeUnit, requestLimit: int, apiUrl: Option<string>, defaultProductGroup: Option<string>)
    : (r: Result<CrptApi, string>)
    ensures r.Failure? <==> requestLimit <= 0
    ensures r.Failure? ==> r.error == LimitNotPositive
    ensures r.Success? ==>
      && r.value.limiter.timestamps == []
      && r.value.limiter.requestLimit == requestLimit
      && r.value.limiter.window == WindowMillis(unit)
      && r.value.apiUrl == apiUrl
      && r.value.defaultProductGroup == defaultProductGroup
  {
    if requestLimit <= 0 then Failure(LimitNotPositive)
    else Success(CrptApi(unit, Limiter(WindowMillis(unit), requestLimit, []), apiUrl, defaultProductGroup))
  }


  /** The three-argument constructor: the production document-creation URL. */
  function NewWithGroup(unit: TimeUnit, requestLimit: int, defaultProductGroup: Option<string>)
    : (r: Result<CrptApi, string>)
    ensures r.Failure? <==> requestLimit <= 0
    ensures r.Success? ==> r.value.apiUrl == Some(DefaultApiUrl) && r.value.defaultProductGroup == defaultProductGroup
  {
    New(unit, requestLimit, Some(DefaultApiUrl), defaultProductGroup)
  }

  /** The two-argument constructor: the production URL and the "clothes" group. */
  function NewDefault(unit: TimeUnit, requestLimit: int): (r: Result<CrptApi, string>)
    ensures r.Failure? <==> requestLimit <= 0
    ensures r.Success? ==> r.value.apiUrl == Some(DefaultApiUrl) && r.value.defaultProductGroup == Some(DefaultProductGroup)
  {
    NewWithGroup(unit, requestLimit, Some(DefaultProductGroup))
  }

  /** A possibly-null String as Java's string concatenation writes it. */
  function JavaText(s: Option<string>): string {
    match s
    case None => "null"
    case Some(v) => v
  }

  /** The text before and after the last occurrence of `c` in `s`. */
  function SplitLast(s: string, c: char): (r: Option<(string, string)>)
    ensures r.None? <==> c !in s
    ensures r.Some? ==> s == r.value.0 + [c] + r.value.1 && c !in r.value.1
    decreases |s|
  {
    if |s| == 0 then None
    else if s[|s| - 1] == c then Some((s[..|s| - 1], []))
    else
      match SplitLast(s[..|s| - 1], c)
      case None => None
      case Some((before, after)) => Some((before, after + [s[|s| - 1]]))
  }

  lemma {:induction false} SplitLastOf(before: string, after: string, c: char)
    requires c !in after
    ensures SplitLast(before + [c] + after, c) == Some((before, after))
    decreases |after|
  {
    var s := before + [c] + after;
    if |after| == 0 {
      assert s[..|s| - 1] == before;
    } else {
      var front := after[..|after| - 1];
      assert s[..|s| - 1] == before + [c] + front;
      assert s[|s| - 1] == after[|after| - 1];
      SplitLastOf(before, front, c);
      assert front + [after[|after| - 1]] == after;
    }
  }

  /** The text before and after the first occurrence of `c` in `s`. */
  function SplitFirst(s: string, c: char): (r: Option<(string, string)>)
    ensures r.None? <==> c !in s
    ensures r.Some? ==> s == r.value.0 + [c] + r.value.1 && c !in r.value.0
    decreases |s|
  {
    if |s| == 0 then None
    else if s[0] == c then Some(([], s[1..]))
    else
      match SplitFirst(s[1..], c)
      case None => None
      case Some((before, after)) => Some(([s[0]] + before, after))
  }

  lemma {:induction false} SplitFirstOf(before: string, after: string, c: char)
    requires c !in before
    ensures SplitFirst(before + [c] + after, c) == Some((before, after))
    decreases |before|
  {
    var s := before + [c] + after;
    if |before| == 0 {
      assert s[1..] == after;
    } else {
      assert s[1..] == before[1..] + [c] + after;
      SplitFirstOf(before[1..], after, c);
      assert [before[0]] + before[1..] == before;
    }
  }

  /**
    buildRequestUrl: the API URL, then the product group as the `pg` query
    parameter; null parts read "null". Splitting the URL at its first '?'
    gives back the API URL and `pg=<group>` when the API URL has no '?'
    (the production URL has none); splitting at its last '?' does so when
    the group has none.
   */
  function BuildRequestUrl(api: CrptApi, productGroup: Option<string>): (url: string)
    ensures '?' !in JavaText(api.apiUrl) ==>
      SplitFirst(url, '?') == Some((JavaText(api.apiUrl), "pg=" + JavaText(productGroup)))
    ensures '?' !in JavaText(productGroup) ==>
      SplitLast(url, '?') == Some((JavaText(api.apiUrl), "pg=" + JavaText(productGroup)))
  {
    QueryParts(JavaText(api.apiUrl), JavaText(productGroup));
    JavaText(api.apiUrl) + "?pg=" + JavaText(productGroup)
  }

  /** Where a '?' can be missing, the split at it finds the URL's two parts. */
  lemma QueryParts(base: string, group: string)
    ensures '?' !in base ==> SplitFirst(base + "?pg=" + group, '?') == Some((base, "pg=" + group))
    ensures '?' !in group ==> SplitLast(base + "?pg=" + group, '?') == Some((base, "pg=" + group))
  {
    assert base + "?pg=" + group == base + ['?'] + ("pg=" + group);
    if '?' !in base {
      SplitFirstOf(base, "pg=" + group, '?');
    }
    if '?' !in group {
      SplitLastOf(base, "pg=" + group, '?');
    }
  }

  /**
    buildRequestBody: the document's JSON, encoded by `encode` (the bytes of
    the text in Base64), wrapped in a request with format MANUAL. Decoding
    the body gives back the encoded document, the format, and the signature
    and document type (each empty when null).
   */
  function BuildRequestBody(doc: Document, signature: Option<string>, documentType: Option<string>, encode: string -> string)
    : (body: string)
    ensures ParseDocumentRequest(body) ==
      Some((encode(DocumentJson(doc)), ManualFormat, signature.GetOr(""), documentType.GetOr("")))
  {
    DocumentRequestJson(DocumentRequest(Some(encode(DocumentJson(doc))), Some(ManualFormat), signature, documentType))
  }

  /** What createDocument does: a request built after admission, or still waiting when the clock readings run out. */
  datatype Outcome =
    | Sent(api: CrptApi, url: string, body: string, stamp: int)
    | Blocked(api: CrptApi, clock: int)

  /**
    createDocument with an explicit group: wait for the limiter, then build
    the URL and an LP_INTRODUCE_GOODS request. The request is built only
    once a slot is taken, its stamp is the newest ledger entry, and the
    ledger never holds more than the limit.
   */
  function CreateDocument(
    api: CrptApi, doc: Document, signature: Option<string>, productGroup: Option<string>,
    now: int, delays: seq<nat>, encode: string -> string): (r: Outcome)
    ensures r.api.timeUnit == api.timeUnit && r.api.apiUrl == api.apiUrl
    ensures r.api.defaultProductGroup == api.defaultProductGroup
    ensures r.api.limiter.window == api.limiter.window && r.api.limiter.requestLimit == api.limiter.requestLimit
    ensures r.Sent? ==>
      && r.stamp >= now
      && r.url == BuildRequestUrl(api, productGroup)
      && r.body == BuildRequestBody(doc, signature, Some(IntroduceGoods), encode)
      && |r.api.limiter.timestamps| > 0
      && r.api.limiter.timestamps[|r.api.limiter.timestamps| - 1] == r.stamp
      && |r.api.limiter.timestamps| <= api.limiter.requestLimit
    ensures r.Blocked? ==> r.clock >= now
  {
    var w := WaitForRequestLimit(api.limiter, now, delays);
    var api' := api.(limiter := After(api.limiter, w));
    match w
    case Admitted(_, stamp) =>
      Sent(api', BuildRequestUrl(api, productGroup), BuildRequestBody(doc, signature, Some(IntroduceGoods), encode), stamp)
    case Waiting(_, clock) => Blocked(api', clock)
  }

  /** createDocument without a group: the group given to the constructor is used. */
  function CreateDocumentInDefaultGroup(
    api: CrptApi, doc: Document, signature: Option<string>,
    now: int, delays: seq<nat>, encode: string -> string): (r: Outcome)
    ensures r.Sent? ==> r.url == BuildRequestUrl(api, api.defaultProductGroup)
  {
    CreateDocument(api, doc, signature, api.defaultProductGroup, now, delays, encode)
  }

  /** With the two-argument constructor, requests go to the production URL with `pg=clothes`. */
  lemma DefaultRequestUrl(unit: TimeUnit, requestLimit: int)
    requires requestLimit > 0
    ensures NewDefault(unit, requestLimit).Success?
    ensures BuildRequestUrl(NewDefault(unit, requestLimit).value, NewDefault(unit, requestLimit).value.defaultProductGroup)
      == DefaultApiUrl + "?pg=" + DefaultProductGroup
  {
  }
}

=== FILE: constructed.dfy ===
/**
  The window guarantee applied to the limiter the CrptApi constructor builds.
 */
module Constructed {
  import opened Wrappers
  import opened Ledger
  import opened SlidingWindow
  import Api

  /**
    The sliding-window guarantee covers a limiter built by the constructor:
    it is the empty limiter of the window model, so over any sequence of
    acquires every admission has at most requestLimit admissions in its
    window.
   */
  lemma NewLimiterRespectsWindow(unit: Api.TimeUnit, requestLimit: int, apiUrl: Option<string>,
                                 defaultProductGroup: Option<string>, clock: int, calls: seq<Call>)
    requires Api.New(unit, requestLimit, apiUrl, defaultProductGroup).Success?
    ensures var api := Api.New(unit, requestLimit, apiUrl, defaultProductGroup).value;
      && api.limiter == Start(Api.WindowMillis(unit), requestLimit, clock).limiter
      && WindowSafe(Replay(Run(api.limiter, [], clock), calls).history, Api.WindowMillis(unit), requestLimit)
  {
    ReplayRespectsWindow(Api.WindowMillis(unit), requestLimit, clock, calls);
  }
}

=== FILE: documents.dfy ===
/**
  The hand-rolled JSON serialisers of CrptApi's nested classes Description,
  Product, Document and DocumentRequest. Every Java field that may be null is
  an Option. The model reproduces what the code writes, including where that
  is not well-formed JSON.
 */
module Documents {
  import opened Wrappers
  import opened JsonEscape

  datatype Description = Description(participantInn: Option<string>)

  datatype Product = Product(
    certificateDocument: Option<string>,
    certificateDocumentDate: Option<string>,
    certificateDocumentNumber: Option<string>,
    ownerInn: Option<string>,
    producerInn: Option<string>,
    productionDate: Option<string>,
    tnvedCode: Option<string>,
    uitCode: Option<string>,
    uituCode: Option<string>)

  datatype Document = Document(
    description: Option<Description>,
    docId: Option<string>,
    docStatus: Option<string>,
    docType: Option<string>,
    importRequest: Option<string>,
    ownerInn: Option<string>,
    participantInn: Option<string>,
    producerInn: Option<string>,
    productionDate: Option<string>,
    productionType: Option<string>,
    products: Option<seq<Product>>,
    regDate: Option<string>,
    regNumber: Option<string>)

  datatype DocumentRequest = DocumentRequest(
    productDocument: Option<string>,
    documentFormat: Option<string>,
    signature: Option<string>,
    requestType: Option<string>)

  /** One appendField call: the key, the field's value and the comma flag passed. */
  datatype Field = Field(key: string, value: Option<string>, addComma: bool)

  /** `lead` followed by the escaped value and a closing quote. */
  function Quoted(lead: string, value: Option<string>): string {
    lead + EscapeJsonString(value) + "\""
  }

  /** The key and the escaped value, each in quotes, separated by a colon. */
  function Member(key: string, value: string): string {
    Quoted("\"" + key + "\":\"", Some(value))
  }

  // ---------------------------------------------------------------------------
  // Reference definitions: the members a serialiser writes, and joining them.

  /** The members written for the non-null fields, in order. */
  function Members(fs: seq<Field>): seq<string>
    decreases |fs|
  {
    if |fs| == 0 then []
    else
      var last := fs[|fs| - 1];
      Members(fs[..|fs| - 1]) + (if last.value.Some? then [Member(last.key, last.value.value)] else [])
  }

  /** The pieces separated by `sep`, with no separator before the first or after the last. */
  function Join(pieces: seq<string>, sep: string): string
    decreases |pieces|
  {
    if |pieces| == 0 then ""
    else if |pieces| == 1 then pieces[0]
    else Join(pieces[..|pieces| - 1], sep) + sep + pieces[|pieces| - 1]
  }

  lemma JoinSnoc(pieces: seq<string>, p: string, sep: string)
    ensures Join(pieces + [p], sep) == if |pieces| == 0 then p else Join(pieces, sep) + sep + p
  {
  }

  lemma MembersSnoc(fs: seq<Field>, f: Field)
    ensures Members(fs + [f]) == Members(fs) + (if f.value.Some? then [Member(f.key, f.value.value)] else [])
  {
  }

  // ---------------------------------------------------------------------------
  // Description.toJsonString

  /**
    Description.toJsonString: a null inn is written as the empty string, so
    the text always decodes back to the inn, or to "" when it was null.
   */
  function DescriptionJson(d: Description): (r: string)
    ensures d.participantInn.None? ==> r == "{\"participant_inn\":\"\"}"
    ensures ParseDescription(r) == Some(d.participantInn.GetOr(""))
  {
    var r := Quoted("{\"participant_inn\":\"", Some(d.participantInn.GetOr(""))) + "}";
    ReadAfterQuoted("{\"participant_inn\":\"", d.participantInn.GetOr(""), "}");
    r
  }

  /** The text after `lead`, read as an escaped string up to its closing quote. */
  function ReadAfter(lead: string, s: string): Option<(string, string)> {
    if |lead| <= |s| && s[..|lead|] == lead then ReadString(s[|lead|..]) else None
  }

  lemma ReadAfterQuoted(lead: string, v: string, rest: string)
    ensures ReadAfter(lead, Quoted(lead, Some(v)) + rest) == Some((v, rest))
  {
    var s := Quoted(lead, Some(v)) + rest;
    assert s == lead + (Escape(v) + "\"" + rest);
    assert s[..|lead|] == lead;
    assert s[|lead|..] == Escape(v) + "\"" + rest;
    ReadStringOfEscape(v, rest);
  }

  /** Decoder for the text Description.toJsonString writes. */
  function ParseDescription(s: string): Option<string> {
    match ReadAfter("{\"participant_inn\":\"", s)
    case Some((inn, rest)) => if rest == "}" then Some(inn) else None
    case None => None
  }

  // ---------------------------------------------------------------------------
  // Product.toJsonString

  /** Product.appendField: a non-null field is written, then a comma if the flag asks for one. */
  function ProductAppendField(f: Field): string {
    match f.value
    case None => ""
    case Some(v) => Member(f.key, v) + (if f.addComma then "," else "")
  }

  /**
    A null field writes nothing; a non-null one writes its member, which reads
    back as the value, followed by a comma exactly when the flag asks for one.
   */
  lemma ProductAppendFieldReadsBack(f: Field)
    ensures f.value.None? <==> ProductAppendField(f) == ""
    ensures f.value.Some? ==>
      ReadAfter("\"" + f.key + "\":\"", ProductAppendField(f))
        == Some((f.value.value, if f.addComma then "," else ""))
  {
    if f.value.Some? {
      ReadAfterQuoted("\"" + f.key + "\":\"", f.value.value, if f.addComma then "," else "");
    }
  }

  /** The appendField calls of Product.toJsonString, made in order. */
  function ProductAppendFields(fs: seq<Field>): string
    decreases |fs|
  {
    if |fs| == 0 then "" else ProductAppendFields(fs[..|fs| - 1]) + ProductAppendField(fs[|fs| - 1])
  }

  /** The eight appendField calls of Product.toJsonString that pass a comma flag of true. */
  function ProductCommaFields(p: Product): (fs: seq<Field>)
    ensures forall i :: 0 <= i < |fs| ==> fs[i].addComma
  {
    [ Field("certificate_document", p.certificateDocument, true),
      Field("certificate_document_date", p.certificateDocumentDate, true),
      Field("certificate_document_number", p.certificateDocumentNumber, true),
      Field("owner_inn", p.ownerInn, true),
      Field("producer_inn", p.producerInn, true),
      Field("production_date", p.productionDate, true),
      Field("tnved_code", p.tnvedCode, true),
      Field("uit_code", p.uitCode, true) ]
  }

  /** The nine appendField calls of Product.toJsonString; the last, uitu_code, passes false. */
  function ProductFields(p: Product): seq<Field> {
    ProductCommaFields(p) + [Field("uitu_code", p.uituCode, false)]
  }

  /**
    Product.toJsonString: the non-null fields in declaration order joined by
    commas, except that when uitu_code is null and some other field is not,
    a comma is left before the closing brace.
   */
  function ProductJson(p: Product): (r: string)
    ensures var ms := Members(ProductFields(p));
      && (p.uituCode.Some? || |ms| == 0 ==> r == "{" + Join(ms, ",") + "}")
      && (p.uituCode.None? && |ms| > 0 ==> r == "{" + Join(ms, ",") + ",}")
  {
    CommaFieldsThenLast(ProductCommaFields(p), Field("uitu_code", p.uituCode, false));
    "{" + ProductAppendFields(ProductFields(p)) + "}"
  }

  /** The pieces joined by commas, and one more comma after them when there is any piece. */
  function CommaTerminated(pieces: seq<string>): string {
    if |pieces| == 0 then "" else Join(pieces, ",") + ","
  }

  lemma {:induction false} AllCommaFields(fs: seq<Field>)
    requires forall i :: 0 <= i < |fs| ==> fs[i].addComma
    ensures ProductAppendFields(fs) == CommaTerminated(Members(fs))
    decreases |fs|
  {
    if |fs| > 0 {
      var front := fs[..|fs| - 1];
      var last := fs[|fs| - 1];
      AllCommaFields(front);
      assert fs == front + [last];
      MembersSnoc(front, last);
      assert ProductAppendFields(fs) == CommaTerminated(Members(front)) + ProductAppendField(last);
      if last.value.Some? {
        var m := Member(last.key, last.value.value);
        JoinSnoc(Members(front), m, ",");
        assert Members(fs) == Members(front) + [m];
        if |Members(front)| > 0 {
          calc {
            ProductAppendFields(fs);
            (Join(Members(front), ",") + ",") + (m + ",");
            (Join(Members(front), ",") + "," + m) + ",";
            CommaTerminated(Members(fs));
          }
        }
      } else {
        assert Members(fs) == Members(front);
      }
    }
  }

  lemma CommaFieldsThenLast(front: seq<Field>, last: Field)
    requires forall i :: 0 <= i < |front| ==> front[i].addComma
    requires !last.addComma
    ensures var ms := Members(front + [last]);
      && (last.value.Some? || |ms| == 0 ==> ProductAppendFields(front + [last]) == Join(ms, ","))
      && (last.value.None? && |ms| > 0 ==> ProductAppendFields(front + [last]) == Join(ms, ",") + ",")
  {
    var fs := front + [last];
    assert fs[..|fs| - 1] == front;
    AllCommaFields(front);
    MembersSnoc(front, last);
    assert ProductAppendFields(fs) == CommaTerminated(Members(front)) + ProductAppendField(last);
    if last.value.Some? {
      var m := Member(last.key, last.value.value);
      assert ProductAppendField(last) == m;
      JoinSnoc(Members(front), m, ",");
      assert Members(fs) == Members(front) + [m];
      if |Members(front)| > 0 {
        assert CommaTerminated(Members(front)) + m == Join(Members(front), ",") + "," + m;
      }
    } else {
      assert ProductAppendField(last) == "";
      assert Members(fs) == Members(front);
    }
  }

  // ---------------------------------------------------------------------------
  // Document.toJsonString

  /** Document.appendField: the comma flag is ignored, so nothing follows a field. */
  function DocumentAppendField(f: Field): string {
    match f.value
    case None => ""
    case Some(v) => Member(f.key, v)
  }

  /**
    A null field writes nothing; a non-null one writes its member, which reads
    back as the value with nothing after it, whatever the comma flag says.
   */
  lemma DocumentAppendFieldReadsBack(f: Field)
    ensures f.value.None? <==> DocumentAppendField(f) == ""
    ensures f.value.Some? ==>
      ReadAfter("\"" + f.key + "\":\"", DocumentAppendField(f)) == Some((f.value.value, ""))
  {
    if f.value.Some? {
      ReadAfterQuoted("\"" + f.key + "\":\"", f.value.value, "");
      assert DocumentAppendField(f) + "" == DocumentAppendField(f);
    }
  }

  /** Consecutive appendField calls of Document.toJsonString, made in order. */
  function DocumentAppendFields(fs: seq<Field>): string
    decreases |fs|
  {
    if |fs| == 0 then "" else DocumentAppendFields(fs[..|fs| - 1]) + DocumentAppendField(fs[|fs| - 1])
  }

  /** The string fields written before the products. */
  function DocumentHeadFields(d: Document): seq<Field> {
    [ Field("doc_id", d.docId, true),
      Field("doc_status", d.docStatus, true),
      Field("doc_type", d.docType, true),
      Field("importRequest", d.importRequest, true),
      Field("owner_inn", d.ownerInn, true),
      Field("participant_inn", d.participantInn, true),
      Field("producer_inn", d.producerInn, true),
      Field("production_date", d.productionDate, true),
      Field("production_type", d.productionType, true) ]
  }

  /** The string fields written after the products. */
  function DocumentTailFields(d: Document): seq<Field> {
    [ Field("reg_date", d.regDate, true),
      Field("reg_number", d.regNumber, false) ]
  }

  function DescriptionPart(description: Option<Description>): string {
    match description
    case None => "\"description\":null,"
    case Some(desc) => "\"description\":" + DescriptionJson(desc) + ","
  }

  /** The for loop over the products: a comma before every item but the first. */
  function ProductItems(ps: seq<Product>): string
    decreases |ps|
  {
    if |ps| == 0 then ""
    else ProductItems(ps[..|ps| - 1]) + (if |ps| > 1 then "," else "") + ProductJson(ps[|ps| - 1])
  }

  /** The products branch: a trailing comma only when there are no products to write. */
  function ProductsPart(products: Option<seq<Product>>): string {
    if products.Some? && |products.value| > 0 then "\"products\":[" + ProductItems(products.value) + "]"
    else "\"products\":[],"
  }

  function DocumentJson(d: Document): (r: string)
    ensures |r| >= 2 && r[0] == '{' && r[|r| - 1] == '}'
  {
    "{" + DescriptionPart(d.description) + DocumentAppendFields(DocumentHeadFields(d))
      + ProductsPart(d.products) + DocumentAppendFields(DocumentTailFields(d)) + "}"
  }

  /** Each product's JSON, in order. */
  function ProductJsons(ps: seq<Product>): (r: seq<string>)
    ensures |r| == |ps|
    ensures forall i :: 0 <= i < |ps| ==> r[i] == ProductJson(ps[i])
    decreases |ps|
  {
    if |ps| == 0 then [] else ProductJsons(ps[..|ps| - 1]) + [ProductJson(ps[|ps| - 1])]
  }

  lemma {:induction false} ProductItemsIsJoin(ps: seq<Product>)
    ensures ProductItems(ps) == Join(ProductJsons(ps), ",")
    decreases |ps|
  {
    if |ps| > 0 {
      ProductItemsIsJoin(ps[..|ps| - 1]);
      JoinSnoc(ProductJsons(ps[..|ps| - 1]), ProductJson(ps[|ps| - 1]), ",");
    }
  }

  lemma {:induction false} DocumentFieldsRunTogether(fs: seq<Field>)
    ensures DocumentAppendFields(fs) == Join(Members(fs), "")
    decreases |fs|
  {
    if |fs| > 0 {
      var front := fs[..|fs| - 1];
      var last := fs[|fs| - 1];
      DocumentFieldsRunTogether(front);
      assert fs == front + [last];
      MembersSnoc(front, last);
      assert DocumentAppendFields(fs) == Join(Members(front), "") + DocumentAppendField(last);
      if last.value.Some? {
        var m := Member(last.key, last.value.value);
        JoinSnoc(Members(front), m, "");
        assert Members(fs) == Members(front) + [m];
        if |Members(front)| > 0 {
          assert Join(Members(front), "") + "" == Join(Members(front), "");
        }
      } else {
        assert Members(fs) == Members(front);
      }
    }
  }

  /**
    The layout of Document.toJsonString: the description (null or nested)
    and a comma, then the non-null string fields with no separator at all,
    then the products, as `[]` followed by a comma when null or empty and
    otherwise the product JSONs joined by commas with no comma after, then
    reg_date and reg_number, again with no separator.
   */
  lemma DocumentJsonLayout(d: Document)
    ensures DocumentJson(d) ==
      "{" + DescriptionPart(d.description)
      + Join(Members(DocumentHeadFields(d)), "")
      + (if d.products.Some? && |d.products.value| > 0
         then "\"products\":[" + Join(ProductJsons(d.products.value), ",") + "]"
         else "\"products\":[],")
      + Join(Members(DocumentTailFields(d)), "")
      + "}"
  {
    DocumentFieldsRunTogether(DocumentHeadFields(d));
    DocumentFieldsRunTogether(DocumentTailFields(d));
    if d.products.Some? {
      ProductItemsIsJoin(d.products.value);
    }
  }

  /** The texts `write` gives the fields, one after another. */
  function WriteAll(fs: seq<Field>, write: Field -> string): string
    decreases |fs|
  {
    if |fs| == 0 then "" else WriteAll(fs[..|fs| - 1], write) + write(fs[|fs| - 1])
  }

  /** A field that `write` turns into nothing can be taken out of the list. */
  lemma {:induction false} SilentFieldSkipped(fs: seq<Field>, i: int, write: Field -> string)
    requires 0 <= i < |fs| && write(fs[i]) == ""
    ensures WriteAll(fs, write) == WriteAll(fs[..i] + fs[i + 1..], write)
    decreases |fs|
  {
    var front, last := fs[..|fs| - 1], fs[|fs| - 1];
    var g := fs[..i] + fs[i + 1..];
    if i == |fs| - 1 {
      assert g == front;
    } else {
      SilentFieldSkipped(front, i, write);
      assert g[..|g| - 1] == front[..i] + front[i + 1..];
      assert g[|g| - 1] == last;
    }
  }

  /** Document.toJsonString's field loop is WriteAll with Document.appendField. */
  lemma {:induction false} DocumentAppendFieldsWriteAll(fs: seq<Field>)
    ensures DocumentAppendFields(fs) == WriteAll(fs, DocumentAppendField)
    decreases |fs|
  {
    if |fs| > 0 {
      DocumentAppendFieldsWriteAll(fs[..|fs| - 1]);
    }
  }

  /** Product.toJsonString's field loop is WriteAll with Product.appendField. */
  lemma {:induction false} ProductAppendFieldsWriteAll(fs: seq<Field>)
    ensures ProductAppendFields(fs) == WriteAll(fs, ProductAppendField)
    decreases |fs|
  {
    if |fs| > 0 {
      ProductAppendFieldsWriteAll(fs[..|fs| - 1]);
    }
  }

  /** A null field among the others changes nothing in what Document.toJsonString writes. */
  lemma DocumentNullFieldSkipped(fs: seq<Field>, i: int)
    requires 0 <= i < |fs| && fs[i].value.None?
    ensures DocumentAppendFields(fs) == DocumentAppendFields(fs[..i] + fs[i + 1..])
  {
    DocumentAppendFieldsWriteAll(fs);
    DocumentAppendFieldsWriteAll(fs[..i] + fs[i + 1..]);
    SilentFieldSkipped(fs, i, DocumentAppendField);
  }

  /** A null field among the others changes nothing in what Product.toJsonString writes. */
  lemma ProductNullFieldSkipped(fs: seq<Field>, i: int)
    requires 0 <= i < |fs| && fs[i].value.None?
    ensures ProductAppendFields(fs) == ProductAppendFields(fs[..i] + fs[i + 1..])
  {
    ProductAppendFieldsWriteAll(fs);
    ProductAppendFieldsWriteAll(fs[..i] + fs[i + 1..]);
    SilentFieldSkipped(fs, i, ProductAppendField);
  }

  // ---------------------------------------------------------------------------
  // DocumentRequest.toJsonString

  /** The four keys, always in this order, every value escaped (null as ""). */
  function DocumentRequestJson(r: DocumentRequest): (s: string)
    ensures ParseDocumentRequest(s) ==
      Some((r.productDocument.GetOr(""), r.documentFormat.GetOr(""), r.signature.GetOr(""), r.requestType.GetOr("")))
  {
    var d := Quoted(",\"type\":\"", r.requestType) + "}";
    var c := Quoted(",\"signature\":\"", r.signature) + d;
    var b := Quoted(",\"document_format\":\"", r.documentFormat) + c;
    var a := Quoted("{\"product_document\":\"", r.productDocument) + b;
    QuotedOption("{\"product_document\":\"", r.productDocument, b);
    QuotedOption(",\"document_format\":\"", r.documentFormat, c);
    QuotedOption(",\"signature\":\"", r.signature, d);
    QuotedOption(",\"type\":\"", r.requestType, "}");
    a
  }

  lemma QuotedOption(lead: string, value: Option<string>, rest: string)
    ensures ReadAfter(lead, Quoted(lead, value) + rest) == Some((value.GetOr(""), rest))
  {
    assert Quoted(lead, value) == Quoted(lead, Some(value.GetOr("")));
    ReadAfterQuoted(lead, value.GetOr(""), rest);
  }

  /** Decoder for the text DocumentRequest.toJsonString writes. */
  function ParseDocumentRequest(s: string): Option<(string, string, string, string)> {
    match ReadAfter("{\"product_document\":\"", s)
    case None => None
    case Some((document, s1)) =>
      match ReadAfter(",\"document_format\":\"", s1)
      case None => None
      case Some((format, s2)) =>
        match ReadAfter(",\"signature\":\"", s2)
        case None => None
        case Some((signature, s3)) =>
          match ReadAfter(",\"type\":\"", s3)
          case None => None
          case Some((requestType, s4)) =>
            if s4 == "}" then Some((document, format, signature, requestType)) else None
  }
}

=== FILE: json_escape.dfy ===
/**
  escapeJsonString, the helper every serialiser of CrptApi carries a copy of:
  null becomes the empty string, otherwise seven chained String.replace calls
  escape backslash, quote, backspace, form feed, newline, carriage return and
  tab, in that order. Other control characters pass through unchanged.
 */
module JsonEscape {
  import opened Wrappers

  const Backspace: char := '\U{0008}'
  const FormFeed: char := '\U{000C}'

  /** The seven characters escapeJsonString rewrites. */
  predicate Special(c: char) {
    c == '\\' || c == '"' || c == Backspace || c == FormFeed || c == '\n' || c == '\r' || c == '\t'
  }

  /** The five control characters among them. */
  predicate EscapedControl(c: char) {
    c == Backspace || c == FormFeed || c == '\n' || c == '\r' || c == '\t'
  }

  /** The letter written after the backslash when a special character is escaped. */
  function EscapeLetter(c: char): (d: char)
    requires Special(c)
    ensures UnescapeLetter(d) == Some(c)
    ensures !EscapedControl(d)
  {
    if c == '\\' then '\\'
    else if c == '"' then '"'
    else if c == Backspace then 'b'
    else if c == FormFeed then 'f'
    else if c == '\n' then 'n'
    else if c == '\r' then 'r'
    else 't'
  }

  /** Reads the letter after a backslash back; None for a letter the escaper never writes. */
  function UnescapeLetter(d: char): Option<char> {
    if d == '\\' then Some('\\')
    else if d == '"' then Some('"')
    else if d == 'b' then Some(Backspace)
    else if d == 'f' then Some(FormFeed)
    else if d == 'n' then Some('\n')
    else if d == 'r' then Some('\r')
    else if d == 't' then Some('\t')
    else None
  }

  /** The escaped form of one character. */
  function EscapeChar(c: char): string {
    if Special(c) then ['\\', EscapeLetter(c)] else [c]
  }

  /**
    Character-by-character escaping, the meaning of the seven replacements.
    No raw backspace, form feed, newline, carriage return or tab survives,
    and escaping never shortens a string.
   */
  function Escape(s: string): (r: string)
    ensures |r| >= |s|
    ensures forall i :: 0 <= i < |r| ==> !EscapedControl(r[i])
    decreases |s|
  {
    if |s| == 0 then "" else EscapeChar(s[0]) + Escape(s[1..])
  }

  /** Java's String.replace for a one-character target: every occurrence, left to right. */
  function Replace(s: string, target: char, replacement: string): string
    decreases |s|
  {
    if |s| == 0 then ""
    else (if s[0] == target then replacement else [s[0]]) + Replace(s[1..], target, replacement)
  }

  /** The chained replace calls, applied in order. */
  function ApplySteps(s: string, steps: seq<(char, string)>): string
    decreases |steps|
  {
    if |steps| == 0 then s else ApplySteps(Replace(s, steps[0].0, steps[0].1), steps[1..])
  }

  /** The seven replace calls of escapeJsonString, backslash first. */
  const ReplaceSteps: seq<(char, string)> := [
    ('\\', "\\\\"), ('"', "\\\""), (Backspace, "\\b"), (FormFeed, "\\f"),
    ('\n', "\\n"), ('\r', "\\r"), ('\t', "\\t")]

  /** escapeJsonString as written: null gives "", anything else goes through the chain. */
  function EscapeJsonString(value: Option<string>): (r: string)
    ensures value.None? ==> r == ""
    ensures value.Some? ==> r == Escape(value.value)
  {
    match value
    case None => ""
    case Some(v) =>
      ReplaceChainIsEscape(v);
      ApplySteps(v, ReplaceSteps)
  }

  /**
    No later step's target occurs in an earlier step's replacement, so no
    character is escaped twice. Putting the backslash step anywhere but first
    breaks this.
   */
  ghost predicate Chainable(steps: seq<(char, string)>) {
    forall i, j, k :: 0 <= i < j < |steps| && 0 <= k < |steps[i].1| ==> steps[j].0 != steps[i].1[k]
  }

  /** The replacement of the first step whose target is `c`, or `c` itself. */
  function Lookup(c: char, steps: seq<(char, string)>): string
    decreases |steps|
  {
    if |steps| == 0 then [c] else if steps[0].0 == c then steps[0].1 else Lookup(c, steps[1..])
  }

  lemma {:induction false} ReplaceConcat(a: string, b: string, target: char, replacement: string)
    ensures Replace(a + b, target, replacement) == Replace(a, target, replacement) + Replace(b, target, replacement)
    decreases |a|
  {
    if |a| > 0 {
      assert (a + b)[1..] == a[1..] + b;
      ReplaceConcat(a[1..], b, target, replacement);
    } else {
      assert a + b == b;
    }
  }

  lemma {:induction false} ApplyStepsConcat(a: string, b: string, steps: seq<(char, string)>)
    ensures ApplySteps(a + b, steps) == ApplySteps(a, steps) + ApplySteps(b, steps)
    decreases |steps|
  {
    if |steps| > 0 {
      ReplaceConcat(a, b, steps[0].0, steps[0].1);
      ApplyStepsConcat(Replace(a, steps[0].0, steps[0].1), Replace(b, steps[0].0, steps[0].1), steps[1..]);
    }
  }

  lemma {:induction false} ReplaceAbsent(s: string, target: char, replacement: string)
    requires forall k :: 0 <= k < |s| ==> s[k] != target
    ensures Replace(s, target, replacement) == s
    decreases |s|
  {
    if |s| > 0 {
      ReplaceAbsent(s[1..], target, replacement);
      assert s == [s[0]] + s[1..];
    }
  }

  lemma {:induction false} ApplyStepsAbsent(s: string, steps: seq<(char, string)>)
    requires forall j, k :: 0 <= j < |steps| && 0 <= k < |s| ==> steps[j].0 != s[k]
    ensures ApplySteps(s, steps) == s
    decreases |steps|
  {
    if |steps| > 0 {
      ReplaceAbsent(s, steps[0].0, steps[0].1);
      ApplyStepsAbsent(s, steps[1..]);
    }
  }

  /** On a single character a chainable sequence of replacements acts as a table lookup. */
  lemma {:induction false} ApplyStepsChar(c: char, steps: seq<(char, string)>)
    requires Chainable(steps)
    ensures ApplySteps([c], steps) == Lookup(c, steps)
    decreases |steps|
  {
    if |steps| > 0 {
      assert Replace([c], steps[0].0, steps[0].1) == (if c == steps[0].0 then steps[0].1 else [c]) by {
        assert [c][1..] == [];
      }
      assert Chainable(steps[1..]) by {
        forall i, j, k | 0 <= i < j < |steps[1..]| && 0 <= k < |steps[1..][i].1|
          ensures steps[1..][j].0 != steps[1..][i].1[k]
        {
          assert steps[1..][j] == steps[j + 1] && steps[1..][i] == steps[i + 1];
        }
      }
      if c == steps[0].0 {
        forall j, k | 0 <= j < |steps[1..]| && 0 <= k < |steps[0].1|
          ensures steps[1..][j].0 != steps[0].1[k]
        {
          assert steps[1..][j] == steps[j + 1];
        }
        ApplyStepsAbsent(steps[0].1, steps[1..]);
      } else {
        ApplyStepsChar(c, steps[1..]);
      }
    }
  }

  lemma ReplaceStepsChainable()
    ensures Chainable(ReplaceSteps)
  {
  }

  lemma LookupIsEscapeChar(c: char)
    ensures Lookup(c, ReplaceSteps) == EscapeChar(c)
  {
    var t := ReplaceSteps;
    assert Lookup(c, t) == if c == '\\' then "\\\\" else Lookup(c, t[1..]);
    assert Lookup(c, t[1..]) == if c == '"' then "\\\"" else Lookup(c, t[2..]);
    assert Lookup(c, t[2..]) == if c == Backspace then "\\b" else Lookup(c, t[3..]);
    assert Lookup(c, t[3..]) == if c == FormFeed then "\\f" else Lookup(c, t[4..]);
    assert Lookup(c, t[4..]) == if c == '\n' then "\\n" else Lookup(c, t[5..]);
    assert Lookup(c, t[5..]) == if c == '\r' then "\\r" else Lookup(c, t[6..]);
    assert Lookup(c, t[6..]) == if c == '\t' then "\\t" else Lookup(c, t[7..]);
    assert Lookup(c, t[7..]) == [c];
  }

  /**
    The seven chained replace calls of escapeJsonString equal the
    character-by-character escape: backslash first means no character is
    escaped twice.
   */
  lemma {:induction false} ReplaceChainIsEscape(s: string)
    ensures ApplySteps(s, ReplaceSteps) == Escape(s)
    decreases |s|
  {
    if |s| > 0 {
      assert s == [s[0]] + s[1..];
      ApplyStepsConcat([s[0]], s[1..], ReplaceSteps);
      ReplaceStepsChainable();
      ApplyStepsChar(s[0], ReplaceSteps);
      LookupIsEscapeChar(s[0]);
      ReplaceChainIsEscape(s[1..]);
    } else {
      ApplyStepsAbsent(s, ReplaceSteps);
    }
  }

  /** A string with none of the seven characters comes back unchanged, and only such a string. */
  lemma {:induction false} EscapeUnchangedIff(s: string)
    ensures Escape(s) == s <==> forall i :: 0 <= i < |s| ==> !Special(s[i])
    decreases |s|
  {
    if |s| > 0 {
      EscapeUnchangedIff(s[1..]);
      if Special(s[0]) {
        assert |Escape(s)| > |s|;
      } else {
        assert s == [s[0]] + s[1..];
        if Escape(s) == s {
          assert Escape(s[1..]) == s[1..];
        }
        assert (forall i :: 0 <= i < |s| ==> !Special(s[i])) <==> (forall i :: 0 <= i < |s[1..]| ==> !Special(s[1..][i]));
      }
    }
  }

  /**
    Decoder for the escaped text of a JSON string: reads up to the first
    unescaped quote and returns the decoded text and what follows the quote.
   */
  function ReadString(s: string): (r: Option<(string, string)>)
    ensures r.Some? ==> |r.value.1| < |s|
    decreases |s|
  {
    if |s| == 0 then None
    else if s[0] == '"' then Some(("", s[1..]))
    else if s[0] == '\\' then
      if |s| < 2 then None
      else
        match UnescapeLetter(s[1])
        case None => None
        case Some(c) =>
          match ReadString(s[2..])
          case None => None
          case Some(p) => Some(([c] + p.0, p.1))
    else
      match ReadString(s[1..])
      case None => None
      case Some(p) => Some(([s[0]] + p.0, p.1))
  }

  /** Decoding consumes the escaped form of one character and yields that character. */
  lemma ReadStringStep(c: char, tail: string)
    ensures ReadString(EscapeChar(c) + tail) ==
      match ReadString(tail)
      case None => None
      case Some(p) => Some(([c] + p.0, p.1))
  {
  }

  /** Escaping followed by the closing quote decodes back to the original text. */
  lemma {:induction false} ReadStringOfEscape(v: string, rest: string)
    ensures ReadString(Escape(v) + "\"" + rest) == Some((v, rest))
    decreases |v|
  {
    if |v| == 0 {
      assert Escape(v) == "";
      assert Escape(v) + "\"" + rest == "\"" + rest;
      assert ("\"" + rest)[1..] == rest;
    } else {
      var tail := Escape(v[1..]) + "\"" + rest;
      ReadStringOfEscape(v[1..], rest);
      assert Escape(v) + "\"" + rest == EscapeChar(v[0]) + tail by {
        assert Escape(v) == EscapeChar(v[0]) + Escape(v[1..]);
      }
      ReadStringStep(v[0], tail);
      assert [v[0]] + v[1..] == v;
    }
  }
}

=== FILE: ledger.dfy ===
/**
  The timestamp ledger behind the rate limiter: a queue of admission instants
  in milliseconds, oldest first. This module holds the pure operations on the
  queue (pruning, the sleep computation) and the counting used to state the
  sliding-window guarantee.
 */
module Ledger {

  /** Entries never decrease from head to tail. */
  predicate Sorted(ts: seq<int>) {
    forall i, j :: 0 <= i <= j < |ts| ==> ts[i] <= ts[j]
  }

  /** A ledger written by a clock that now reads `now`: sorted, and nothing lies in the future. */
  predicate Ordered(ts: seq<int>, now: int) {
    Sorted(ts) && forall i :: 0 <= i < |ts| ==> ts[i] <= now
  }

  /**
    `kept` is `ts` with a prefix removed, and every removed entry lies strictly
    before `threshold`.
   */
  predicate DropsStale(ts: seq<int>, kept: seq<int>, threshold: int)
    decreases |ts|
  {
    if |ts| <= |kept| then ts == kept
    else ts[0] < threshold && DropsStale(ts[1..], kept, threshold)
  }

  /** The same relation read positionally: a suffix, and a stale prefix. */
  lemma {:induction false} DropsStaleSuffix(ts: seq<int>, kept: seq<int>, threshold: int)
    requires DropsStale(ts, kept, threshold)
    ensures |kept| <= |ts| && kept == ts[|ts| - |kept|..]
    ensures forall i :: 0 <= i < |ts| - |kept| ==> ts[i] < threshold
    decreases |ts|
  {
    if |ts| > |kept| {
      DropsStaleSuffix(ts[1..], kept, threshold);
      assert ts[1..][|ts| - 1 - |kept|..] == ts[|ts| - |kept|..];
      forall i | 0 <= i < |ts| - |kept|
        ensures ts[i] < threshold
      {
        if i > 0 {
          assert ts[i] == ts[1..][i - 1];
        }
      }
    }
  }

  lemma {:induction false} DropsStaleTrans(a: seq<int>, b: seq<int>, c: seq<int>, t1: int, t2: int)
    requires DropsStale(a, b, t1) && DropsStale(b, c, t2) && t1 <= t2
    ensures DropsStale(a, c, t2)
    decreases |a|
  {
    DropsStaleSuffix(b, c, t2);
    if |a| > |b| {
      DropsStaleTrans(a[1..], b, c, t1, t2);
    }
  }

  lemma {:induction false} DropsStaleAppend(a: seq<int>, b: seq<int>, x: int, threshold: int)
    requires DropsStale(a, b, threshold)
    ensures DropsStale(a + [x], b + [x], threshold)
    decreases |a|
  {
    if |a| > |b| {
      DropsStaleAppend(a[1..], b, x, threshold);
      assert (a + [x])[1..] == a[1..] + [x];
    }
  }

  function Max(a: int, b: int): int {
    if a >= b then a else b
  }

  /**
    cleanOldRequests: pop the head while it is strictly before `threshold`
    (Instant.isBefore). The threshold is the clock reading minus the window.
   */
  function Prune(ts: seq<int>, threshold: int): (r: seq<int>)
    ensures |r| <= |ts|
    ensures DropsStale(ts, r, threshold)
    ensures |r| > 0 ==> r[0] >= threshold
    decreases |ts|
  {
    if |ts| > 0 && ts[0] < threshold then Prune(ts[1..], threshold) else ts
  }

  /** Reference definition: the entries at or after `threshold`, in order. */
  function Recent(ts: seq<int>, threshold: int): seq<int>
    decreases |ts|
  {
    if |ts| == 0 then []
    else (if ts[0] >= threshold then [ts[0]] else []) + Recent(ts[1..], threshold)
  }

  lemma {:induction false} RecentOfAllRecent(ts: seq<int>, threshold: int)
    requires forall i :: 0 <= i < |ts| ==> ts[i] >= threshold
    ensures Recent(ts, threshold) == ts
    decreases |ts|
  {
    if |ts| > 0 {
      RecentOfAllRecent(ts[1..], threshold);
      assert ts == [ts[0]] + ts[1..];
    }
  }

  /**
    On a sorted ledger, popping stale heads is the same as keeping exactly the
    entries at or after the threshold: nothing recent is removed and nothing
    stale survives.
   */
  lemma {:induction false} PruneSortedIsRecent(ts: seq<int>, threshold: int)
    requires Sorted(ts)
    ensures Prune(ts, threshold) == Recent(ts, threshold)
    decreases |ts|
  {
    if |ts| > 0 && ts[0] < threshold {
      PruneSortedIsRecent(ts[1..], threshold);
    } else {
      RecentOfAllRecent(ts, threshold);
    }
  }

  /** Without sortedness the head test can leave stale entries behind it. */
  lemma UnsortedPruneKeepsStale()
    ensures Prune([5, 1], 3) == [5, 1] && Recent([5, 1], 3) == [5]
  {
  }

  /** Pruning at a later clock reading subsumes an earlier pruning. */
  lemma {:induction false} PruneTwice(ts: seq<int>, a: int, b: int)
    requires a <= b
    ensures Prune(Prune(ts, a), b) == Prune(ts, b)
    decreases |ts|
  {
    if |ts| > 0 && ts[0] < a {
      PruneTwice(ts[1..], a, b);
    }
  }

  /**
    calculateSleepTime: how long to sleep until the oldest entry reaches its
    expiry instant `head + window`; zero on an empty ledger.
   */
  function SleepTime(ts: seq<int>, window: nat, now: int): (r: int)
    ensures r >= 0
    ensures |ts| == 0 ==> r == 0
    ensures |ts| > 0 ==> now + r >= ts[0] + window
    ensures |ts| > 0 && now <= ts[0] + window ==> now + r == ts[0] + window
    ensures |ts| > 0 && now >= ts[0] + window ==> r == 0
  {
    if |ts| == 0 then 0 else Max(0, ts[0] + window - now)
  }

  /**
    Pruning at clock reading `t` removes the head exactly when the clock is
    strictly past the head's expiry instant.
   */
  lemma HeadExpiresIff(ts: seq<int>, window: nat, t: int)
    requires |ts| > 0
    ensures |Prune(ts, t - window)| < |ts| <==> t > ts[0] + window
  {
  }

  /**
    Waking at exactly the instant the sleep aimed for does not free the head:
    one sleep is not enough, the clock must move on by at least one more
    millisecond.
   */
  lemma WakingAtExpiryKeepsHead(ts: seq<int>, window: nat, now: int, later: int)
    requires |ts| > 0 && ts[0] >= now - window
    requires later >= now + SleepTime(ts, window, now)
    ensures later == now + SleepTime(ts, window, now) ==> Prune(ts, later - window) == ts
    ensures later > now + SleepTime(ts, window, now) ==> |Prune(ts, later - window)| < |ts|
  {
  }

  /** Number of entries of `h` inside the closed interval [lo, hi]. */
  function CountIn(h: seq<int>, lo: int, hi: int): (n: nat)
    ensures n <= |h|
    decreases |h|
  {
    if |h| == 0 then 0
    else CountIn(h[..|h| - 1], lo, hi) + (if lo <= h[|h| - 1] <= hi then 1 else 0)
  }

  lemma {:induction false} CountInConcat(a: seq<int>, b: seq<int>, lo: int, hi: int)
    ensures CountIn(a + b, lo, hi) == CountIn(a, lo, hi) + CountIn(b, lo, hi)
    decreases |b|
  {
    if |b| == 0 {
      assert a + b == a;
    } else {
      assert (a + b)[..|a + b| - 1] == a + b[..|b| - 1];
      CountInConcat(a, b[..|b| - 1], lo, hi);
    }
  }

  lemma CountInSnoc(h: seq<int>, x: int, lo: int, hi: int)
    ensures CountIn(h + [x], lo, hi) == CountIn(h, lo, hi) + (if lo <= x <= hi then 1 else 0)
  {
  }

  lemma {:induction false} CountInBelow(a: seq<int>, lo: int, hi: int)
    requires forall i :: 0 <= i < |a| ==> a[i] < lo
    ensures CountIn(a, lo, hi) == 0
    decreases |a|
  {
    if |a| > 0 {
      CountInBelow(a[..|a| - 1], lo, hi);
    }
  }

  lemma {:induction false} CountInAll(a: seq<int>, lo: int, hi: int)
    requires forall i :: 0 <= i < |a| ==> lo <= a[i] <= hi
    ensures CountIn(a, lo, hi) == |a|
    decreases |a|
  {
    if |a| > 0 {
      CountInAll(a[..|a| - 1], lo, hi);
    }
  }

  /** How many admissions of `h` fall in the window that ends at admission `i`. */
  function WindowCountAt(h: seq<int>, window: nat, i: int): nat
    requires 0 <= i < |h|
  {
    CountIn(h, h[i] - window, h[i])
  }

  /**
    The sliding-window guarantee over a history of admissions: for every
    admission at time t, at most `limit` admissions (itself included) carry a
    timestamp in [t - window, t].
   */
  ghost predicate WindowSafe(h: seq<int>, window: nat, limit: int) {
    forall i :: 0 <= i < |h| ==> WindowCountAt(h, window, i) <= limit
  }

  lemma {:induction false} CountInPrefixRun(h: seq<int>, lo: int, hi: int, i: int, j: int)
    requires 0 <= i <= j <= |h|
    requires forall k :: i <= k < j ==> lo <= h[k] <= hi
    ensures CountIn(h[..j], lo, hi) >= j - i
    decreases j
  {
    if j > i {
      CountInPrefixRun(h, lo, hi, i, j - 1);
      assert h[..j][..j - 1] == h[..j - 1];
    }
  }

  /** When admissions i..j all lie in the window ending at admission j, that window holds at least j - i + 1. */
  lemma WindowHoldsRun(h: seq<int>, window: nat, i: int, j: int)
    requires 0 <= i <= j < |h|
    requires forall k :: i <= k <= j ==> h[j] - window <= h[k] <= h[j]
    ensures WindowCountAt(h, window, j) >= j - i + 1
  {
    CountInPrefixRun(h, h[j] - window, h[j], i, j + 1);
    assert h == h[..j + 1] + h[j + 1..];
    CountInConcat(h[..j + 1], h[j + 1..], h[j] - window, h[j]);
  }

  /**
    In a sorted window-safe history, any limit + 1 consecutive admissions
    span strictly more than one window: admission i + limit comes more than
    `window` after admission i.
   */
  lemma SpreadOut(h: seq<int>, window: nat, limit: int, i: int)
    requires Sorted(h) && WindowSafe(h, window, limit)
    requires 0 <= i && 0 <= limit && i + limit < |h|
    ensures h[i + limit] > h[i] + window
  {
    var j := i + limit;
    if h[j] <= h[i] + window {
      forall k | i <= k <= j
        ensures h[j] - window <= h[k] <= h[j]
      {
        assert h[i] <= h[k];
      }
      WindowHoldsRun(h, window, i, j);
      assert false;
    }
  }
}

=== FILE: limiter.dfy ===
/**
  The admission loop of CrptApi (waitForRequestLimit), as a sequential state
  machine driven by an explicit clock.

  Every Instant.now() call is one clock reading. A call starts from a first
  reading `now` and a sequence of `delays`: each later reading is the previous
  one plus the next delay, and a reading taken after a sleep of s milliseconds
  is the previous one plus s plus the next delay (a sleep lasts at least as
  long as asked). When the delays run out the caller is still waiting.
 */
module Limiter {
  import opened Ledger

  /** The limiter state of a CrptApi instance. */
  datatype Limiter = Limiter(window: nat, requestLimit: int, timestamps: seq<int>)

  /** How a call to waitForRequestLimit ends within the observed clock readings. */
  datatype Wait =
    | Admitted(timestamps: seq<int>, stamp: int)   // a timestamp was appended; the caller proceeds
    | Waiting(timestamps: seq<int>, clock: int)    // still blocked at the last reading
  {
    /** The last clock reading the call took. */
    function Clock(): int {
      if Admitted? then stamp else clock
    }
  }

  /** The ledger minus its newest entry. */
  function Front(ts: seq<int>): seq<int>
    requires |ts| > 0
  {
    ts[..|ts| - 1]
  }

  /**
    The while loop of waitForRequestLimit on ledger `ts`, entered just after a
    cleaning whose clock reading was `now`. While the ledger is full: read the
    clock, sleep calculateSleepTime, clean again at the reading after the
    sleep. Once it is not full: read the clock and append that reading.
   */
  function WaitLoop(ts: seq<int>, window: nat, limit: int, now: int, delays: seq<nat>): (r: Wait)
    ensures r.Clock() >= now
    decreases |delays|
  {
    if |ts| < limit then
      if |delays| == 0 then Waiting(ts, now) else Admitted(ts + [now + delays[0]], now + delays[0])
    else if |delays| == 0 then Waiting(ts, now)
    else if |delays| == 1 then Waiting(ts, now + delays[0])
    else
      var after := AfterSleep(ts, window, now, delays);
      WaitLoop(Prune(ts, after - window), window, limit, after, delays[2..])
  }

  /**
    The reading after one loop round (read, sleep as calculateSleepTime says,
    read again): the later of the first reading and the oldest entry's expiry
    instant, plus the second delay.
   */
  function AfterSleep(ts: seq<int>, window: nat, now: int, delays: seq<nat>): (after: int)
    requires |delays| >= 2
    ensures |ts| == 0 ==> after == now + delays[0] + delays[1]
    ensures |ts| > 0 ==> after == Max(now + delays[0], ts[0] + window) + delays[1]
  {
    now + delays[0] + SleepTime(ts, window, now + delays[0]) + delays[1]
  }

  /**
    What the loop leaves behind: on admission the ledger it entered minus some
    stale entries, with room for one more, plus the admission's own reading at
    the back; while waiting, the ledger minus some stale entries.
   */
  lemma {:induction false} WaitLoopOutcome(ts: seq<int>, window: nat, limit: int, now: int, delays: seq<nat>)
    ensures var r := WaitLoop(ts, window, limit, now, delays);
      && (r.Admitted? ==>
        && |r.timestamps| > 0
        && r.timestamps[|r.timestamps| - 1] == r.stamp
        && |Front(r.timestamps)| < limit
        && DropsStale(ts, Front(r.timestamps), r.stamp - window))
      && (r.Waiting? ==> DropsStale(ts, r.timestamps, r.clock - window))
    decreases |delays|
  {
    if |ts| < limit {
      if |delays| > 0 {
        var stamp := now + delays[0];
        assert WaitLoop(ts, window, limit, now, delays) == Admitted(ts + [stamp], stamp);
        assert Front(ts + [stamp]) == ts;
      }
    } else if |delays| >= 2 {
      var after := AfterSleep(ts, window, now, delays);
      var cleaned := Prune(ts, after - window);
      var r := WaitLoop(cleaned, window, limit, after, delays[2..]);
      assert WaitLoop(ts, window, limit, now, delays) == r;
      WaitLoopOutcome(cleaned, window, limit, after, delays[2..]);
      if r.Admitted? {
        DropsStaleTrans(ts, cleaned, Front(r.timestamps), after - window, r.stamp - window);
      } else {
        DropsStaleTrans(ts, cleaned, r.timestamps, after - window, r.clock - window);
      }
    }
  }

  /**
    waitForRequestLimit on limiter `l`: clean at the first reading, then run
    the loop. On admission exactly one entry, the admission's own reading, is
    appended at the back, the ledger holds at most requestLimit entries, and
    only entries that had left the window were removed.
   */
  function WaitForRequestLimit(l: Limiter, now: int, delays: seq<nat>): (r: Wait)
    ensures r.Clock() >= now
    ensures r.Admitted? ==>
      && |r.timestamps| > 0
      && r.timestamps[|r.timestamps| - 1] == r.stamp
      && |r.timestamps| <= l.requestLimit
      && DropsStale(l.timestamps, Front(r.timestamps), r.stamp - l.window)
    ensures r.Waiting? ==> DropsStale(l.timestamps, r.timestamps, r.clock - l.window)
  {
    var cleaned := Prune(l.timestamps, now - l.window);
    var r := WaitLoop(cleaned, l.window, l.requestLimit, now, delays);
    WaitLoopOutcome(cleaned, l.window, l.requestLimit, now, delays);
    if r.Admitted? then
      DropsStaleTrans(l.timestamps, cleaned, Front(r.timestamps), now - l.window, r.stamp - l.window);
      r
    else
      DropsStaleTrans(l.timestamps, cleaned, r.timestamps, now - l.window, r.clock - l.window);
      r
  }

  /**
    The loop's entry test in both directions: the caller is admitted at its
    next reading, onto the cleaned ledger with nothing more removed and
    without sleeping, exactly when the cleaned ledger has room.
   */
  lemma RoomAdmitsAtOnce(l: Limiter, now: int, delays: seq<nat>)
    requires |delays| > 0
    ensures var cleaned := Prune(l.timestamps, now - l.window);
      WaitForRequestLimit(l, now, delays) == Admitted(cleaned + [now + delays[0]], now + delays[0])
      <==> |cleaned| < l.requestLimit
  {
    var cleaned := Prune(l.timestamps, now - l.window);
    var r := WaitForRequestLimit(l, now, delays);
    if r == Admitted(cleaned + [now + delays[0]], now + delays[0]) {
      WaitLoopOutcome(cleaned, l.window, l.requestLimit, now, delays);
      assert Front(r.timestamps) == cleaned;
    }
  }

  /** A ledger written by a clock that never goes back stays sorted across a call. */
  lemma WaitKeepsOrder(l: Limiter, now: int, delays: seq<nat>)
    requires Ordered(l.timestamps, now)
    ensures var r := WaitForRequestLimit(l, now, delays); Ordered(r.timestamps, r.Clock())
  {
    var r := WaitForRequestLimit(l, now, delays);
    if r.Admitted? {
      OrderedAfterDrop(l.timestamps, Front(r.timestamps), now, r.stamp, r.stamp - l.window);
      assert r.timestamps == Front(r.timestamps) + [r.stamp];
    } else {
      OrderedAfterDrop(l.timestamps, r.timestamps, now, r.clock, r.clock - l.window);
    }
  }

  lemma OrderedAfterDrop(ts: seq<int>, kept: seq<int>, now: int, later: int, threshold: int)
    requires DropsStale(ts, kept, threshold) && now <= later
    ensures Ordered(ts, now) ==> Ordered(kept, later) && Ordered(kept + [later], later)
  {
  }

  /** The limiter after the call: its ledger replaced by the one the call left. */
  function After(l: Limiter, w: Wait): Limiter {
    Limiter(l.window, l.requestLimit, w.timestamps)
  }

  /**
    Progress: if every clock reading is at least one millisecond after the
    previous one (on top of any sleep), the loop admits within 2n+1 readings,
    n being the ledger's size, because each sleep is followed by a reading
    strictly past the head's expiry, which prunes the head.
   */
  lemma {:induction false} AdvancingClockAdmits(ts: seq<int>, window: nat, limit: int, now: int, delays: seq<nat>)
    requires limit > 0
    requires forall i :: 0 <= i < |delays| ==> delays[i] >= 1
    requires |delays| >= 2 * |ts| + 1
    ensures WaitLoop(ts, window, limit, now, delays).Admitted?
    decreases |delays|
  {
    if |ts| >= limit {
      var after := AfterSleep(ts, window, now, delays);
      var cleaned := Prune(ts, after - window);
      HeadExpiresIff(ts, window, after);
      AdvancingClockAdmits(cleaned, window, limit, after, delays[2..]);
      assert WaitLoop(ts, window, limit, now, delays) == WaitLoop(cleaned, window, limit, after, delays[2..]);
    }
  }

  /**
    The counterpart: with a clock that never moves on its own, a full ledger
    whose head is inside the window never frees up. Each sleep wakes exactly at
    the head's expiry instant, where the head is not yet strictly before the
    threshold, and the loop spins on zero-length sleeps.
   */
  lemma {:induction false} FrozenClockNeverAdmits(ts: seq<int>, window: nat, limit: int, now: int, delays: seq<nat>)
    requires 0 < limit <= |ts|
    requires ts[0] >= now - window
    requires forall i :: 0 <= i < |delays| ==> delays[i] == 0
    ensures WaitLoop(ts, window, limit, now, delays).Waiting?
    decreases |delays|
  {
    if |delays| >= 2 {
      var after := AfterSleep(ts, window, now, delays);
      assert after == now + SleepTime(ts, window, now);
      WakingAtExpiryKeepsHead(ts, window, now, after);
      FrozenClockNeverAdmits(ts, window, limit, after, delays[2..]);
      assert WaitLoop(ts, window, limit, now, delays) == WaitLoop(ts, window, limit, after, delays[2..]);
    }
  }
}

=== FILE: window.dfy ===
/**
  The sliding-window guarantee of the limiter, proved over whole runs: callers
  acquire one after another, and a history of every admission is kept beside
  the ledger for the proof's sake.
 */
module SlidingWindow {
  import opened Ledger
  import opened Limiter

  /** One acquiring caller: it first reads the clock `gap` ms after the previous reading. */
  datatype Call = Call(gap: nat, delays: seq<nat>)

  /**
    A run of the limiter together with the history of every admission so far
    (a specification-only record: the code keeps only the ledger).
   */
  datatype Run = Run(limiter: Limiter, history: seq<int>, clock: int)

  /** The run of a freshly constructed limiter. */
  function Start(window: nat, requestLimit: int, clock: int): Run {
    Run(Limiter(window, requestLimit, []), [], clock)
  }

  /**
    Callers acquire one after another (the lock serialises them); the run
    stops at the first caller that is still waiting, since it holds the lock.
   */
  function Replay(run: Run, calls: seq<Call>): (r: Run)
    ensures r.limiter.window == run.limiter.window && r.limiter.requestLimit == run.limiter.requestLimit
    ensures r.clock >= run.clock
    decreases |calls|
  {
    if |calls| == 0 then run
    else
      var w := WaitForRequestLimit(run.limiter, run.clock + calls[0].gap, calls[0].delays);
      if w.Admitted? then Replay(Settle(run, w), calls[1..]) else Settle(run, w)
  }

  /** The run after one acquire ends: an admission is recorded in the history. */
  function Settle(run: Run, w: Wait): Run {
    match w
    case Admitted(_, stamp) => Run(After(run.limiter, w), run.history + [stamp], stamp)
    case Waiting(_, clock) => Run(After(run.limiter, w), run.history, clock)
  }

  /**
    The invariant tying history to ledger: the ledger is a suffix of the
    history, everything dropped from it lies before the current window, the
    history is sorted and in the past, and every admission respects the limit.
   */
  ghost predicate Consistent(run: Run) {
    && run.limiter.requestLimit > 0
    && Ordered(run.history, run.clock)
    && DropsStale(run.history, run.limiter.timestamps, run.clock - run.limiter.window)
    && WindowSafe(run.history, run.limiter.window, run.limiter.requestLimit)
  }

  /** Before an admission at `stamp`, fewer than `limit` earlier admissions lie in its window. */
  lemma NewestWindowCount(h: seq<int>, kept: seq<int>, stamp: int, window: nat, limit: int)
    requires DropsStale(h, kept, stamp - window)
    requires |kept| < limit
    ensures CountIn(h, stamp - window, stamp) < limit
  {
    DropsStaleSuffix(h, kept, stamp - window);
    var dropped := h[..|h| - |kept|];
    assert h == dropped + kept;
    CountInConcat(dropped, kept, stamp - window, stamp);
    CountInBelow(dropped, stamp - window, stamp);
  }

  lemma AdmissionKeepsWindow(h: seq<int>, kept: seq<int>, stamp: int, window: nat, limit: int)
    requires forall i :: 0 <= i < |h| ==> h[i] <= stamp
    requires DropsStale(h, kept, stamp - window)
    requires |kept| < limit
    requires WindowSafe(h, window, limit)
    ensures WindowSafe(h + [stamp], window, limit)
  {
    var h' := h + [stamp];
    NewestWindowCount(h, kept, stamp, window, limit);
    forall i | 0 <= i < |h'|
      ensures WindowCountAt(h', window, i) <= limit
    {
      CountInSnoc(h, stamp, h'[i] - window, h'[i]);
      if i < |h| {
        assert h'[i] == h[i];
        assert WindowCountAt(h, window, i) <= limit;
      }
    }
  }

  lemma OrderedSnoc(h: seq<int>, clock: int, stamp: int)
    requires Ordered(h, clock) && clock <= stamp
    ensures Ordered(h + [stamp], stamp)
  {
  }

  /** One admission keeps the run consistent. */
  lemma AdmissionKeepsConsistent(run: Run, w: Wait)
    requires Consistent(run)
    requires w.Admitted? && w.stamp >= run.clock
    requires |w.timestamps| > 0 && w.timestamps[|w.timestamps| - 1] == w.stamp
    requires |Front(w.timestamps)| < run.limiter.requestLimit
    requires DropsStale(run.limiter.timestamps, Front(w.timestamps), w.stamp - run.limiter.window)
    ensures Consistent(Run(After(run.limiter, w), run.history + [w.stamp], w.stamp))
  {
    var l := run.limiter;
    var kept := Front(w.timestamps);
    DropsStaleTrans(run.history, l.timestamps, kept, run.clock - l.window, w.stamp - l.window);
    AdmissionKeepsWindow(run.history, kept, w.stamp, l.window, l.requestLimit);
    DropsStaleAppend(run.history, kept, w.stamp, w.stamp - l.window);
    assert w.timestamps == kept + [w.stamp];
    OrderedSnoc(run.history, run.clock, w.stamp);
  }

  /** A caller still waiting at the end of the observed clock keeps the run consistent. */
  lemma WaitingKeepsConsistent(run: Run, w: Wait)
    requires Consistent(run)
    requires w.Waiting? && w.clock >= run.clock
    requires DropsStale(run.limiter.timestamps, w.timestamps, w.clock - run.limiter.window)
    ensures Consistent(Run(After(run.limiter, w), run.history, w.clock))
  {
    var l := run.limiter;
    DropsStaleTrans(run.history, l.timestamps, w.timestamps, run.clock - l.window, w.clock - l.window);
  }

  /** One acquire, admitted or still waiting, keeps the run consistent. */
  lemma AcquireKeepsConsistent(run: Run, now: int, delays: seq<nat>)
    requires Consistent(run) && now >= run.clock
    ensures Consistent(Settle(run, WaitForRequestLimit(run.limiter, now, delays)))
  {
    var w := WaitForRequestLimit(run.limiter, now, delays);
    if w.Admitted? {
      AdmissionKeepsConsistent(run, w);
    } else {
      WaitingKeepsConsistent(run, w);
    }
  }

  lemma {:induction false} ReplayKeepsConsistent(run: Run, calls: seq<Call>)
    requires Consistent(run)
    ensures Consistent(Replay(run, calls))
    decreases |calls|
  {
    if |calls| > 0 {
      var now := run.clock + calls[0].gap;
      var w := WaitForRequestLimit(run.limiter, now, calls[0].delays);
      AcquireKeepsConsistent(run, now, calls[0].delays);
      if w.Admitted? {
        assert Replay(run, calls) == Replay(Settle(run, w), calls[1..]);
        ReplayKeepsConsistent(Settle(run, w), calls[1..]);
      } else {
        assert Replay(run, calls) == Settle(run, w);
      }
    }
  }

  /**
    The entries left after cleaning at `now` all lie in the window ending at
    `now`, so they are no more than the history's admissions in that window.
   */
  lemma CleanedWithinCount(h: seq<int>, ts: seq<int>, clock: int, window: nat, now: int)
    requires Ordered(h, clock) && DropsStale(h, ts, clock - window) && clock <= now
    ensures |Prune(ts, now - window)| <= CountIn(h, now - window, now)
  {
    var p := Prune(ts, now - window);
    DropsStaleTrans(h, ts, p, clock - window, now - window);
    DropsStaleSuffix(h, p, now - window);
    var k := |h| - |p|;
    assert k < |h| ==> h[k] == p[0];
    SuffixInWindow(h, clock, k, now - window, now);
    assert CountIn(h, now - window, now) >= |p| by {
      assert h == h[..k] + p;
      CountInConcat(h[..k], p, now - window, now);
      CountInAll(p, now - window, now);
    }
  }

  /** In an ordered history, everything from an entry at or after `lo` onwards lies in [lo, hi]. */
  lemma SuffixInWindow(h: seq<int>, clock: int, k: int, lo: int, hi: int)
    requires Ordered(h, clock) && clock <= hi && 0 <= k <= |h|
    requires k < |h| ==> h[k] >= lo
    ensures forall i :: 0 <= i < |h| - k ==> lo <= h[k..][i] <= hi
  {
    forall i | 0 <= i < |h| - k
      ensures lo <= h[k..][i] <= hi
    {
      assert h[k..][i] == h[k + i];
      assert h[k] <= h[k + i];
    }
  }

  /**
    A caller that finds fewer than requestLimit admissions in the window
    ending at its clean is admitted at its next reading, without sleeping.
   */
  lemma RoomInWindowAdmitsAtOnce(run: Run, now: int, delays: seq<nat>)
    requires Consistent(run) && now >= run.clock && |delays| > 0
    requires CountIn(run.history, now - run.limiter.window, now) < run.limiter.requestLimit
    ensures var w := WaitForRequestLimit(run.limiter, now, delays);
      w.Admitted? && w.stamp == now + delays[0]
  {
    CleanedWithinCount(run.history, run.limiter.timestamps, run.clock, run.limiter.window, now);
    RoomAdmitsAtOnce(run.limiter, now, delays);
  }

  /**
    The sliding-window guarantee: over any sequence of acquires on a limiter
    constructed with a positive limit, with a clock that never goes back, each
    admission at time t has at most requestLimit admissions, itself included,
    stamped in [t - window, t].
   */
  lemma ReplayRespectsWindow(window: nat, requestLimit: int, clock: int, calls: seq<Call>)
    requires requestLimit > 0
    ensures var r := Replay(Start(window, requestLimit, clock), calls);
      WindowSafe(r.history, window, requestLimit)
  {
    ReplayKeepsConsistent(Start(window, requestLimit, clock), calls);
  }

  /**
    Over the same runs the history of admissions is sorted, and the ledger is
    that history minus a prefix of entries older than the current window (so
    it is always a suffix of the history).
   */
  lemma ReplayLedgerIsRecentHistory(window: nat, requestLimit: int, clock: int, calls: seq<Call>)
    requires requestLimit > 0
    ensures var r := Replay(Start(window, requestLimit, clock), calls);
      && Sorted(r.history)
      && DropsStale(r.history, r.limiter.timestamps, r.clock - window)
  {
    ReplayKeepsConsistent(Start(window, requestLimit, clock), calls);
  }

  /**
    With a limit of N per window, the admission N places after any other is
    stamped strictly more than one window later: of six calls at five per
    second, the sixth completes more than a second after the first.
   */
  lemma ReplaySpreadsAdmissions(window: nat, requestLimit: int, clock: int, calls: seq<Call>, i: int)
    requires requestLimit > 0
    requires var h := Replay(Start(window, requestLimit, clock), calls).history;
      0 <= i && i + requestLimit < |h|
    ensures var h := Replay(Start(window, requestLimit, clock), calls).history;
      h[i + requestLimit] > h[i] + window
  {
    ReplayRespectsWindow(window, requestLimit, clock, calls);
    ReplayLedgerIsRecentHistory(window, requestLimit, clock, calls);
    var h := Replay(Start(window, requestLimit, clock), calls).history;
    SpreadOut(h, window, requestLimit, i);
  }
}

=== FILE: wrappers.dfy ===
/** Java's nullable references and thrown exceptions, as values. */
module Wrappers {

  /** A Java reference that may be null: None stands for null. */
  datatype Option<+T> = None | Some(value: T) {

    /** The value, or `default` when null (the `x != null ? x : d` idiom). */
    function GetOr(default: T): T {
      match this
      case Some(v) => v
      case None => default
    }
  }

  /** A call that either returns a value or throws an exception carrying a message. */
  datatype Result<+T, +E> = Success(value: T) | Failure(error: E)
}
